=== FILE: README.md ===
# Sticker bot: pack naming, classification, resize geometry and set provisioning

A Dafny model of the decision logic of a Telegram bot that turns photos, GIFs and
videos into stickers and files them into per-user sticker sets (`bot.py`). The
Telegram Bot API, the image codec and the FFmpeg transcoder are not modelled.
Each platform call the model keeps becomes a field of an outcome record that the
caller passes in. The sticker sets on the platform are an immutable registry,
`map<string, StickerSet>`.

Modules (one file each):

- `Text` (text.dfy): Python's `str.isspace` and `str.strip()`, ASCII lower-casing,
  and `str(int)` with its read-back.
- `Types` (types.dfy): the two sticker kinds, the default emoji U+1F9E9, and the
  errors a request can raise.
- `Naming` (naming.dfy): `sanitize_username`, and the set name and title built
  in `get_or_create_set`.
- `Classify` (classify.dfy): the extension `tg_download_to_bytes` reports,
  including `pathlib`'s `name`/`suffix`. Also the kind rule and the emoji rule of
  `handle_media`, and the default emoji of `add_to_set`.
- `Resize` (resize.dfy): the target dimensions of `image_to_sticker_webp`.
- `Registry` (registry.dfy): `get_or_create_set` as a get-or-create over the
  registry, and `add_to_set` as an append.
- `Handler` (handler.dfy): `handle_media` composed from the above.

Behaviour of the code that a reader might not expect, and which the model keeps:

- A lookup that fails for a set that exists is taken for "not found". The create
  that follows is refused because the name is taken, and the request fails with
  `CreateFailed` although the set is there.
- Every lookup failure is treated as "not found". Transient errors are not told
  apart from a missing set.
- The longer edge is not always exactly 512. `int(w * (512.0 / max(w, h)))` is
  computed in floating point and can give 511 for some sizes, so only bounds are
  claimed.
- After a create, the set is re-fetched and its first sticker is deleted, whichever
  sticker that is.
- A user without a username and the user whose username is `user<that id>` share
  one set name, so the second user's stickers go into the first user's set
  (`Naming.FallbackMeetsUsername`).
- A message is rejected as unsupported only when it has no photo, animation, video
  or document. A message with media is never rejected for an empty payload.

## Model

| member | source | states |
|---|---|---|
| `Naming.SanitizeUsername` | bot.py:54-57 | An empty username gives exactly `user` followed by the decimal id. A non-empty one gives a string of the same length made only of `[a-z0-9_]`. In it, `[a-z0-9_]` characters are kept, upper-case letters are lower-cased, and every other character becomes `_`. |
| `Naming.SanitizeKeepsNameChars` | bot.py:57 | A non-empty username already made of `[a-z0-9_]` is its own sanitization. |
| `Naming.SanitizeIdempotent` | bot.py:57 | On a non-empty username, sanitizing the sanitized name returns it unchanged. |
| `Naming.SanitizeFallbackIdempotent` | bot.py:55-56 | For a non-negative id, the fallback `user<id>` also passes through a second sanitization unchanged. |
| `Naming.SanitizeFallbackInjective` | bot.py:55-56 | Two users without a username get the same fallback only if their ids are equal. |
| `Text.IntToString` | bot.py:56 | `str(id)`: digits only for a non-negative id; a `-` and then digits for a negative one. |
| `Text.Lower` | bot.py:57 | ASCII `str.lower()`: same length, every upper-case letter becomes its lower-case letter, and every other character is unchanged. |
| `Text.ParseIntToString` | bot.py:56 | `str(id)` can be read back to the id, so the fallback name determines the user. |
| `Naming.SetName` | bot.py:152-154 | The set name `<uname><_static or _video>_by_<bot>` parses back to the user's sanitized username and the kind: both can be recovered from the name alone. |
| `Naming.NameTailParses` | bot.py:152-154 | Any username followed by a kind's tail `_static_by_<bot>` or `_video_by_<bot>` parses back to that username and kind. |
| `Naming.StaticVideoNamesDiffer` | bot.py:43-44 | A static set name never equals a video set name under the same bot, even for two different users. |
| `Naming.SetNameInjective` | bot.py:152-154 | For one bot and kind, two users get the same set name exactly when their sanitized usernames are equal. |
| `Naming.FallbackMeetsUsername` | bot.py:54-57 | A set name does not identify its owner. A user without a username and id `n`, and any user whose username is `user<n>`, get the same set name for every kind and bot. |
| `Naming.SetTitle` | bot.py:155 | The title starts with the first name, or with `User` when the first name is empty. It parses back to that display name and the kind (`'s Static Stickers` or `'s Video Stickers`). |
| `Naming.TitleTailParses` | bot.py:155 | Any display name followed by a kind's title tail parses back to that display name and kind. |
| `Naming.ExampleSanitized` | bot.py:57 | `My.Bot!` sanitizes to `my_bot_`. |
| `Naming.ExampleSetName` | bot.py:152-154 | Under the bot `StickBot`, the user `My.Bot!` owns `my_bot__static_by_StickBot`. |
| `Text.Strip` | bot.py:239 | `str.strip()`: the result is `s[i..j]`, where everything before `i` and after `j` is Python whitespace, and the kept part starts and ends with a non-whitespace character. |
| `Text.StripCharacterized` | bot.py:239 | Any such trimming of a string equals `Strip` of it, so the stripped caption is uniquely determined. |
| `Classify.RFind` | bot.py:79 | `str.rfind` for one character: the last index holding it, or -1 when it does not occur. |
| `Classify.BaseName` | bot.py:79 | `Path(p).name` is the last path component that is neither empty nor `.`. It is a slash-free slice of `p` bounded by `/` or the ends of `p`, and only `/` and `.` components follow it. It is empty exactly when `p` has no such component. |
| `Classify.PathSuffix` | bot.py:85 | `Path(p).suffix` is a proper tail of the name that starts with its only dot, followed by at least one character. It is empty exactly when the name is empty, ends in a dot, or has no dot after its first character. |
| `Classify.DownloadExt` | bot.py:59-88 | Raises `NoMessage` without a message and `UnsupportedMessage` without media, and raises nothing else. The first medium present decides the extension: `.jpg` for a photo, `.gif` for an animation, and for a video or document the lower-cased file suffix, or `.mp4` or `.bin` when it has none. Every reported extension starts with a dot, has at least two characters and is in lower case. |
| `Classify.KindFor` | bot.py:242 | The kind is video exactly when the message carries a video or an animation, or the extension equals one of `.gif .mp4 .mov .mkv .webm .avi` ignoring letter case. Otherwise it is static. |
| `Classify.KindIgnoresCase` | bot.py:242 | Lower-casing the extension first never changes the kind. |
| `Classify.MessageKind` | bot.py:238-242 | A message with media becomes a video sticker exactly when it has an animation or a video. A message with neither also becomes one when it has no photo and its document's suffix is a motion format in any case. |
| `Classify.EmojiFor` | bot.py:239-240 | The emoji has 1 to 10 characters and no surrounding whitespace. It is either the default or a trimming of the caption. |
| `Classify.EmojiFromCaption` | bot.py:239-240 | When the trimmed caption has 1 to 10 characters, it is used verbatim as the emoji. |
| `Classify.EmojiFallback` | bot.py:239-240 | A blank caption, or one longer than 10 characters after trimming, gives the default emoji. |
| `Classify.TagFor` | bot.py:200-205 | `add_to_set` never binds an empty emoji. A non-empty one is kept, and an empty one becomes the default emoji. |
| `Classify.TagOfEmoji` | bot.py:200 | The default substitution in `add_to_set` never changes the emoji the handler chose. |
| `Resize.TargetSize` | bot.py:96-99 | An image whose longer edge is at most 512 keeps its size (no upscaling). Otherwise both output edges are at most 512, and neither exceeds its input edge. |
| `Resize.OrientationPreserved` | bot.py:96-99 | A side that is not the longer one before the resize is not the longer one after it. |
| `Resize.TargetIdempotent` | bot.py:96-99 | Resizing an already-resized image changes nothing. |
| `Resize.ExampleLandscape` | bot.py:96-99 | 1024x768 becomes 512x384. |
| `Resize.ExampleThin` | bot.py:96-99 | 1x10000 becomes 0x512: a thin enough image gets a zero-width target. |
| `Registry.DeleteFirstSticker` | bot.py:186-189 | The re-fetched set loses its first sticker, if it has one. Its title, its format and every other set stay as they were. |
| `Registry.CreateWithPlaceholder` | bot.py:163-193 | Creating a missing set adds only that set, with the title and the kind's format. It keeps the placeholder exactly when the re-fetch or delete raised. |
| `Registry.GetOrCreateSet` | bot.py:144-193 | Only the derived set can change, and a set that exists is never modified. A successful lookup returns at once. A failed lookup of an existing set ends in `CreateFailed`. A missing set is created unless the create is refused. An error comes only from a refused create and leaves the registry unchanged. Success returns the derived name and title, and the set then exists. The set is created exactly when it was missing. A newly created set has the kind's title and format, and it still holds the placeholder only if the deletion failed. |
| `Registry.ProvisionTwice` | bot.py:157-183 | Two provisioning calls in a row create the set at most once, whatever the platform answers. After a first success, the second call changes nothing. With a working lookup, it also returns the same name and title. |
| `Registry.AddToSet` | bot.py:195-215 | Only the named set can change. A refused add, or an add to a missing set, changes nothing. Otherwise the set gains exactly one sticker at its end, with the emoji (or the default) and the kind's format. The returned id is the id of the set's last sticker. |
| `Registry.AddTwice` | bot.py:208-212 | Nothing is de-duplicated: two adds leave the set two stickers longer and every other set unchanged. |
| `Handler.Deliver` | bot.py:249-250 | Provisioning then appending succeeds exactly when the set is found (or, if missing, created) and the add and the re-fetch go through. It changes only the user's set of that kind, and an existing set only gains stickers at its end. On success the reply names that set and title, and the set's last sticker carries the returned id, the emoji (or the default) and the kind's format. |
| `Handler.HandleMedia` | bot.py:235-250 | A request succeeds exactly when it has media and every platform call it makes goes through. A failed lookup is fatal for an existing set but not for a missing one. A request without media, or one that fails before provisioning, changes nothing. Only the user's set of the request's kind can change. An existing set only gains stickers at its end. On success the reply names that set, and the set's last sticker carries the caption's emoji and the kind's format. |
| `Handler.FirstRequestCreates` | bot.py:163-193 | A user's first request of a kind, with every platform call going through, succeeds. The set is created with the kind's title and format, and the placeholder is removed. The set then holds exactly the returned sticker with the caption's emoji, and every other set is unchanged. |
| `Handler.ExistingSetReused` | bot.py:249-250 | When the user's set of the request's kind already exists and the platform answers normally, the request succeeds without creating anything. The set keeps its title and grows by exactly the new sticker, whose id is the one returned, and every other set is unchanged. With `HandleMedia`'s success clause, this means the user's next image reuses the set the first one created. |

## Left out

- The Telegram Bot API calls (`get_me`, `get_sticker_set`, `create_new_sticker_set`, `delete_sticker_from_set`, `add_sticker_to_set`, `send_chat_action`, file downloads) are network I/O. Each is replaced by a flag or an id in an outcome record. The bot's own username is a parameter, and a failing `get_me` is not modelled.
- The platform's own checks on sets (ownership, format of the stickers, size limits) are not modelled. A create fails only when the name is taken or the outcome says so, and an add fails only when the set is missing or the outcome says so.
- `video_to_sticker_webm` and `ensure_ffmpeg` (bot.py:112-140) are left out: they run an external binary and use temporary files. Their failure is the `convertFails` flag.
- PIL decoding, LANCZOS resampling and WEBP encoding are foreign library code. Only the width/height arithmetic is modelled, and a decoding failure is the same `convertFails` flag.
- The placeholder image bytes are left out. The placeholder is a WEBP sticker with the default emoji and a platform-given id.
- `Resize.TargetSize`: uses the integer floor `w * 512 / max(w, h)` in place of Python's floating-point `int(w * (512.0 / max(w, h)))`. It claims only the bounds, not an exact 512 edge or a lower bound, because float rounding can give 511 and very thin images can round to 0.
- `Classify.KindFor`: models `str.lower()` on ASCII letters only. Non-ASCII case mappings are not modelled, such as the KELVIN SIGN that lower-cases to `k`.
- `Classify.DownloadExt`: lower-cases the file suffix on ASCII letters only, for the same reason.
- `Resize.TargetSize`: requires one positive edge. On a 0x0 image the source divides by zero (bot.py:97), and that exception is not modelled. A very thin image, such as 1x10000, gets a zero edge (`TargetSize(Size(1, 10000)) == Size(0, 512)`). Such an image fails in `im.resize` (bot.py:99); that failure is the `convertFails` flag.
- The replies `reply_sticker` and `reply_text` (bot.py:252-255) are not modelled, and neither is their failure. A request is reported as successful once the append and the re-fetch succeed. In the source, a failing reply ends in the `except` of bot.py:257-262, which tells the user the request failed although the sticker was already added.
- Each request is one atomic step on the registry. In the source, the lookup, create and delete (bot.py:158, 176, 187-189) are separate platform calls, and so are the add and the re-fetch (bot.py:208-215). Concurrent requests of one user can interleave between them, and `stickers[-1]` (bot.py:215) can then be another request's sticker. `Registry.AddToSet`, `Handler.Deliver`, `Handler.HandleMedia`, `Handler.FirstRequestCreates` and `Handler.ExistingSetReused` state that the returned id is the new sticker's only in the absence of such interleaving.
- `Classify.PathSuffix`: follows `pathlib`'s rule that a trailing dot is not a suffix. It assumes a POSIX path and a file path that is always present.
- Python strings may contain lone surrogates, but Dafny `char` cannot. Captions are sequences of Unicode scalar values.
- The reply texts, the error message, logging, `start`, `help_cmd`, `main` and the webhook/polling configuration (bot.py:219-300) are UI and bootstrap code.
- The `assert kind in ("static", "video")` of `get_or_create_set` cannot fail: `Kind` has exactly those two values.

=== FILE: classify.dfy ===
/** Request classification (bot.py `tg_download_to_bytes` and the head of
    `handle_media`): which extension a download reports, which kind of sticker a
    message becomes, and which emoji is bound to it. */
module Classify {
  import opened Text
  import opened Types

  /** What an incoming message carries. A photo or animation is only present or
      absent; a video or document carries the file path the platform reports for
      it. An absent caption is the empty string. */
  datatype Message = Message(
    photo: bool,
    animation: bool,
    video: Option<string>,
    document: Option<string>,
    caption: string)

  /** Python's `str.rfind` for one character: the last index holding `c`, or -1. */
  function RFind(s: string, c: char): (i: int)
    ensures -1 <= i < |s|
    ensures i >= 0 ==> s[i] == c
    ensures forall k :: i < k < |s| ==> s[k] != c
  {
    if |s| == 0 then -1
    else if s[|s| - 1] == c then |s| - 1
    else RFind(s[..|s| - 1], c)
  }

  /** A path part with no real component: only `/` and components that are `.`. */
  ghost predicate TrivialPath(t: string) {
    forall i :: 0 <= i < |t| ==>
      || t[i] == '/'
      || (t[i] == '.' && (i == 0 || t[i - 1] == '/') && (i == |t| - 1 || t[i + 1] == '/'))
  }

  /** `p[k..e]` is the last component of `p` that is neither empty nor `.`. */
  ghost predicate LastComponentAt(p: string, k: int, e: int) {
    && 0 <= k < e <= |p|
    && (k == 0 || p[k - 1] == '/')
    && (e == |p| || p[e] == '/')
    && (forall i :: k <= i < e ==> p[i] != '/')
    && p[k..e] != "."
    && TrivialPath(p[e..])
  }

  lemma TrivialPlusSlash(t: string)
    requires TrivialPath(t)
    ensures TrivialPath(t + "/")
  {
    var u := t + "/";
    forall i | 0 <= i < |u|
      ensures u[i] == '/' || (u[i] == '.' && (i == 0 || u[i - 1] == '/') && (i == |u| - 1 || u[i + 1] == '/'))
    {
      if i < |t| {
        assert u[i] == t[i];
        assert t[i] == '/' || (t[i] == '.' && (i == 0 || t[i - 1] == '/') && (i == |t| - 1 || t[i + 1] == '/'));
        if i > 0 { assert u[i - 1] == t[i - 1]; }
        if i + 1 < |t| { assert u[i + 1] == t[i + 1]; } else { assert u[i + 1] == '/'; }
      }
    }
  }

  lemma TrivialPlusDot(t: string)
    requires TrivialPath(t) && (|t| == 0 || t[|t| - 1] == '/')
    ensures TrivialPath(t + ".")
  {
    var u := t + ".";
    forall i | 0 <= i < |u|
      ensures u[i] == '/' || (u[i] == '.' && (i == 0 || u[i - 1] == '/') && (i == |u| - 1 || u[i + 1] == '/'))
    {
      if i < |t| && u[i] != '/' {
        assert u[i] == t[i];
        if i > 0 { assert u[i - 1] == t[i - 1]; }
        if i + 1 < |t| { assert u[i + 1] == t[i + 1]; }
      } else if i == |t| && i > 0 {
        assert u[i - 1] == t[i - 1];
      }
    }
  }

  /** A trailing `/` leaves the last real component where it was. */
  lemma LastComponentPlusSlash(q: string, k: int, e: int)
    requires LastComponentAt(q, k, e)
    ensures LastComponentAt(q + "/", k, e)
  {
    var p := q + "/";
    assert p[e..] == q[e..] + "/";
    TrivialPlusSlash(q[e..]);
    assert p[k..e] == q[k..e];
    if k > 0 { assert p[k - 1] == q[k - 1]; }
    if e < |q| { assert p[e] == q[e]; }
  }

  /** A trailing `.` component leaves the last real component where it was. */
  lemma LastComponentPlusDot(q: string, k: int, e: int)
    requires LastComponentAt(q, k, e) && |q| > 0 && q[|q| - 1] == '/'
    ensures LastComponentAt(q + ".", k, e)
  {
    var p := q + ".";
    assert e < |q|;
    assert p[e..] == q[e..] + ".";
    TrivialPlusDot(q[e..]);
    assert p[k..e] == q[k..e];
    if k > 0 { assert p[k - 1] == q[k - 1]; }
    assert p[e] == q[e];
  }

  /** A path ending in a character other than `/` whose last component is not `.`
      has that component last. */
  lemma LastComponentAtEnd(p: string, k: int)
    requires |p| > 0 && p[|p| - 1] != '/'
    requires k == RFind(p, '/') + 1 && p[k..] != "."
    ensures LastComponentAt(p, k, |p|)
  {
  }

  /** Where `PurePosixPath(p).name` sits in `p`: empty bounds when there is no
      real component. */
  function ComponentBounds(p: string): (b: (nat, nat))
    ensures b.0 <= b.1 <= |p|
    ensures b.0 == b.1 ==> TrivialPath(p)
    ensures b.0 < b.1 ==> LastComponentAt(p, b.0, b.1)
    decreases |p|
  {
    var n := |p|;
    if n == 0 then (0, 0)
    else if p[n - 1] == '/' then
      var q := p[..n - 1];
      var b := ComponentBounds(q);
      assert p == q + "/";
      if b.0 == b.1 then
        TrivialPlusSlash(q);
        b
      else
        LastComponentPlusSlash(q, b.0, b.1);
        b
    else
      var k := RFind(p, '/') + 1;
      if p[k..] == "." then
        var q := p[..k];
        var b := ComponentBounds(q);
        assert p == q + ".";
        if b.0 == b.1 then
          TrivialPlusDot(q);
          b
        else
          LastComponentPlusDot(q, b.0, b.1);
          b
      else
        LastComponentAtEnd(p, k);
        (k, n)
  }

  /** `PurePosixPath(p).name`: the last component of `p` that is neither empty nor
      `.`; empty when there is none. */
  function BaseName(p: string): (r: string)
    ensures r == "" ==> TrivialPath(p)
    ensures r != "" ==> exists k, e :: LastComponentAt(p, k, e) && r == p[k..e]
  {
    var b := ComponentBounds(p);
    p[b.0..b.1]
  }

  /** `PurePosixPath(p).suffix`: from the last dot of the name, provided that dot is
      neither the name's first nor its last character; otherwise empty. */
  function PathSuffix(p: string): (r: string)
    ensures r == "" || (|r| >= 2 && r[0] == '.')
    ensures forall k :: 1 <= k < |r| ==> r[k] != '.'
    ensures r != "" ==> EndsWith(BaseName(p), r) && |r| < |BaseName(p)|
    ensures var name := BaseName(p);
      r == "" <==> (|name| == 0 || name[|name| - 1] == '.' || forall k :: 0 < k < |name| ==> name[k] != '.')
  {
    var name := BaseName(p);
    var i := RFind(name, '.');
    if 0 < i < |name| - 1 then name[i..] else ""
  }

  /** `Path(path).suffix.lower() or fallback`. */
  function SuffixOr(path: string, fallback: string): (r: string)
    requires |fallback| >= 2 && fallback[0] == '.' && Lower(fallback) == fallback
    ensures |r| >= 2 && r[0] == '.' && Lower(r) == r
    ensures PathSuffix(path) == "" ==> r == fallback
    ensures PathSuffix(path) != "" ==> r == Lower(PathSuffix(path))
  {
    var ext := Lower(PathSuffix(path));
    LowerIdempotent(PathSuffix(path));
    if ext == "" then fallback else ext
  }

  /** The extension `tg_download_to_bytes` returns next to the bytes. The first of
      photo, animation, video and document present decides it; the file download
      itself is left to the platform. */
  function DownloadExt(update: Option<Message>): (r: Result<string>)
    ensures r.Err? <==> update.None? || !HasMedia(update.value)
    ensures update.None? ==> r == Err(NoMessage)
    ensures update.Some? && !HasMedia(update.value) ==> r == Err(UnsupportedMessage)
    ensures r.Ok? ==> |r.value| >= 2 && r.value[0] == '.' && Lower(r.value) == r.value
    // A photo is a JPEG; an animation is a GIF.
    ensures update.Some? && update.value.photo ==> r == Ok(".jpg")
    ensures update.Some? && !update.value.photo && update.value.animation ==> r == Ok(".gif")
    // A video or document reports its file's suffix, lower-cased, defaulting to
    // `.mp4` for a video and `.bin` for a document.
    ensures update.Some? && !update.value.photo && !update.value.animation && update.value.video.Some? ==>
      var sfx := PathSuffix(update.value.video.value);
      r == Ok(if sfx == "" then ".mp4" else Lower(sfx))
    ensures update.Some? && !update.value.photo && !update.value.animation && update.value.video.None?
            && update.value.document.Some? ==>
      var sfx := PathSuffix(update.value.document.value);
      r == Ok(if sfx == "" then ".bin" else Lower(sfx))
  {
    match update
    case None => Err(NoMessage)
    case Some(m) =>
      if m.photo then
        LowerKeeps(".jpg");
        Ok(".jpg")
      else if m.animation then
        LowerKeeps(".gif");
        Ok(".gif")
      else if m.video.Some? then
        LowerKeeps(".mp4");
        Ok(SuffixOr(m.video.value, ".mp4"))
      else if m.document.Some? then
        LowerKeeps(".bin");
        Ok(SuffixOr(m.document.value, ".bin"))
      else Err(UnsupportedMessage)
  }

  predicate HasMedia(m: Message) {
    m.photo || m.animation || m.video.Some? || m.document.Some?
  }

  /** The extensions `handle_media` sends down the video path. */
  const MotionExts: set<string> := {".gif", ".mp4", ".mov", ".mkv", ".webm", ".avi"}

  /** `ext` names a motion format, in any mix of letter case. */
  predicate IsMotionExt(ext: string) {
    || SameIgnoringCase(ext, ".gif")
    || SameIgnoringCase(ext, ".mp4")
    || SameIgnoringCase(ext, ".mov")
    || SameIgnoringCase(ext, ".mkv")
    || SameIgnoringCase(ext, ".webm")
    || SameIgnoringCase(ext, ".avi")
  }

  /** The kind rule of `handle_media`: video when the extension, lower-cased, is a
      motion format or the message carries a video or an animation. */
  function KindFor(ext: string, m: Message): (k: Kind)
    ensures k == Video <==> IsMotionExt(ext) || m.video.Some? || m.animation
  {
    LowerEqualsIgnoringCase(ext, ".gif");
    LowerEqualsIgnoringCase(ext, ".mp4");
    LowerEqualsIgnoringCase(ext, ".mov");
    LowerEqualsIgnoringCase(ext, ".mkv");
    LowerEqualsIgnoringCase(ext, ".webm");
    LowerEqualsIgnoringCase(ext, ".avi");
    if Lower(ext) in MotionExts || m.video.Some? || m.animation then Video else Static
  }

  /** The letter case of the extension never matters. */
  lemma KindIgnoresCase(ext: string, m: Message)
    ensures KindFor(ext, m) == KindFor(Lower(ext), m)
  {
    LowerIdempotent(ext);
  }

  /** Classifying a message end to end: it becomes a video sticker exactly when it
      carries an animation or a video, or when, without a photo, it carries a
      document whose file suffix names a motion format in any letter case. */
  lemma {:induction false} MessageKind(m: Message)
    requires HasMedia(m)
    ensures DownloadExt(Some(m)).Ok?
    ensures KindFor(DownloadExt(Some(m)).value, m) == Video
        <==> m.animation || m.video.Some?
             || (!m.photo && m.document.Some? && Lower(PathSuffix(m.document.value)) in MotionExts)
  {
    var ext := DownloadExt(Some(m)).value;
    if m.animation || m.video.Some? {
    } else if m.photo {
      LowerKeeps(".jpg");
      assert KindFor(ext, m) == Static;
    } else {
      var sfx := PathSuffix(m.document.value);
      LowerIdempotent(sfx);
      if sfx == "" {
        LowerKeeps(".bin");
        assert Lower(sfx) == "";
        assert KindFor(ext, m) == Static;
      } else {
        assert Lower(ext) == Lower(sfx);
      }
    }
  }

  /** The `emoji or DEFAULT_EMOJI` of `add_to_set`. */
  function TagFor(emoji: string): (r: string)
    ensures r != ""
    ensures emoji != "" ==> r == emoji
    ensures emoji == "" ==> r == DefaultEmoji
  {
    if emoji == "" then DefaultEmoji else emoji
  }

  /** The emoji rule of `handle_media`: the stripped caption when it has between one
      and ten characters, the default emoji otherwise. */
  function EmojiFor(caption: string): (r: string)
    ensures 1 <= |r| <= 10
    ensures !IsSpace(r[0]) && !IsSpace(r[|r| - 1])
    ensures r == DefaultEmoji || exists i, j :: Trimmed(caption, i, j) && r == caption[i..j]
  {
    var c := Strip(caption);
    if c != "" && |c| <= 10 then c else DefaultEmoji
  }

  /** A caption whose trimmed text has one to ten characters is the emoji, verbatim. */
  lemma EmojiFromCaption(caption: string, i: int, j: int)
    requires Trimmed(caption, i, j) && 0 < j - i <= 10
    ensures EmojiFor(caption) == caption[i..j]
  {
    StripCharacterized(caption, i, j);
  }

  /** A blank caption, or one over ten characters once trimmed, falls back to the default. */
  lemma EmojiFallback(caption: string, i: int, j: int)
    requires Trimmed(caption, i, j) && (i == j || j - i > 10)
    ensures EmojiFor(caption) == DefaultEmoji
  {
    StripCharacterized(caption, i, j);
  }

  /** The default substitution in `add_to_set` never changes an emoji the handler chose. */
  lemma TagOfEmoji(caption: string)
    ensures TagFor(EmojiFor(caption)) == EmojiFor(caption)
  {
  }
}

=== FILE: handler.dfy ===
/** The media handler (bot.py `handle_media`): download, classify, convert,
    provision the user's set of that kind and append the sticker. Every stage that
    raises ends the request with the registry as that stage left it; nothing is
    rolled back. The conversion itself is an outcome the caller passes in. */
module Handler {
  import opened Types
  import opened Naming
  import opened Classify
  import opened Registry

  datatype Request = Request(update: Option<Message>, user: User)

  /** How the outside world answers one request: the chat action, the file
      download, the image or video conversion, and the sticker-set calls. */
  datatype Env = Env(
    chatActionFails: bool,
    downloadFails: bool,
    convertFails: bool,
    provision: ProvisionOutcome,
    append: AppendOutcome)

  /** What the handler replies with on success: the sticker, and the set it joined. */
  datatype Reply = Reply(fileId: string, setName: string, setTitle: string)

  /** The kind a message with media is converted to. */
  function RequestKind(m: Message): Kind
    requires HasMedia(m)
  {
    KindFor(DownloadExt(Some(m)).value, m)
  }

  /** The name of the set a request goes to, once its message has media. */
  function Target(req: Request, botName: string): string
    requires req.update.Some? && HasMedia(req.update.value)
  {
    SetName(req.user, botName, RequestKind(req.update.value))
  }

  /** The tail of `handle_media` once the sticker is converted: provision the set,
      then append the sticker to it. */
  function Deliver(reg: Registry, user: User, botName: string, kind: Kind, emoji: string, env: Env): (s: Step<Reply>)
    // It succeeds exactly when the set is found (or, when missing, created) and the
    // add and the re-fetch go through.
    ensures s.result.Ok? <==>
      && (SetName(user, botName, kind) in reg ==> !env.provision.lookupFails)
      && (SetName(user, botName, kind) !in reg ==> !env.provision.createFails)
      && !env.append.addFails && !env.append.refetchFails
    ensures s.registry - {SetName(user, botName, kind)} == reg - {SetName(user, botName, kind)}
    ensures SetName(user, botName, kind) in reg ==>
      && SetName(user, botName, kind) in s.registry
      && reg[SetName(user, botName, kind)].stickers <= s.registry[SetName(user, botName, kind)].stickers
    ensures s.result.Ok? ==>
      var name := SetName(user, botName, kind);
      && s.result.value.setName == name
      && s.result.value.setTitle == SetTitle(user, kind)
      && name in s.registry
      && |s.registry[name].stickers| > 0
      && s.registry[name].stickers[|s.registry[name].stickers| - 1]
           == Sticker(s.result.value.fileId, TagFor(emoji), FormatOf(kind))
  {
    var p := GetOrCreateSet(reg, user, botName, kind, env.provision);
    if p.result.Err? then Step(p.registry, Err(p.result.error))
    else
      var a := AddToSet(p.registry, p.result.value.name, kind, emoji, env.append);
      if a.result.Err? then Step(a.registry, Err(a.result.error))
      else Step(a.registry, Ok(Reply(a.result.value, p.result.value.name, p.result.value.title)))
  }

  function HandleMedia(reg: Registry, req: Request, botName: string, env: Env): (s: Step<Reply>)
    // A request succeeds exactly when it has media and every platform call it makes
    // goes through; a failed lookup of an existing set is fatal, of a missing one not.
    ensures s.result.Ok? <==>
      && req.update.Some? && HasMedia(req.update.value)
      && !env.chatActionFails && !env.downloadFails && !env.convertFails
      && (Target(req, botName) in reg ==> !env.provision.lookupFails)
      && (Target(req, botName) !in reg ==> !env.provision.createFails)
      && !env.append.addFails && !env.append.refetchFails
    // A request without media, or one that fails before provisioning, changes nothing.
    ensures req.update.None? || !HasMedia(req.update.value) ==> s.registry == reg && s.result.Err?
    ensures env.chatActionFails || env.downloadFails || env.convertFails ==> s.registry == reg && s.result.Err?
    // Only the user's set of the request's kind can change.
    ensures req.update.Some? && HasMedia(req.update.value) ==>
      s.registry - {Target(req, botName)} == reg - {Target(req, botName)}
    // A set that existed only ever gains stickers at its end.
    ensures req.update.Some? && HasMedia(req.update.value) && Target(req, botName) in reg ==>
      && Target(req, botName) in s.registry
      && reg[Target(req, botName)].stickers <= s.registry[Target(req, botName)].stickers
    // Success: the reply names the user's set of that kind, whose last sticker is
    // the new one, carrying the caption's emoji.
    ensures s.result.Ok? ==>
      && req.update.Some? && HasMedia(req.update.value)
      && var m := req.update.value;
         var name := Target(req, botName);
         var kind := RequestKind(m);
         && s.result.value.setName == name
         && s.result.value.setTitle == SetTitle(req.user, kind)
         && name in s.registry
         && |s.registry[name].stickers| > 0
         && s.registry[name].stickers[|s.registry[name].stickers| - 1]
              == Sticker(s.result.value.fileId, EmojiFor(m.caption), FormatOf(kind))
  {
    if env.chatActionFails then Step(reg, Err(ApiFailed))
    else match DownloadExt(req.update)
      case Err(e) => Step(reg, Err(e))
      case Ok(ext) =>
        if env.downloadFails then Step(reg, Err(DownloadFailed))
        else
          var m := req.update.value;
          var emoji := EmojiFor(m.caption);
          var kind := KindFor(ext, m);
          if env.convertFails then Step(reg, Err(ConversionFailed))
          else
            TagOfEmoji(m.caption);
            Deliver(reg, req.user, botName, kind, emoji, env)
  }

  /** Once the user's set of a kind exists (as it does after any successful request,
      by the contract above), the next submission of that kind with a working lookup
      reuses it: nothing is created, and the set grows by exactly the new sticker. */
  lemma ExistingSetReused(reg: Registry, req: Request, botName: string, env: Env)
    requires req.update.Some? && HasMedia(req.update.value)
    requires Target(req, botName) in reg
    requires !env.chatActionFails && !env.downloadFails && !env.convertFails
    requires !env.provision.lookupFails && !env.append.addFails && !env.append.refetchFails
    ensures var s := HandleMedia(reg, req, botName, env);
            var name := Target(req, botName);
            var m := req.update.value;
            && s.result.Ok?
            && s.result.value.setName == name
            && s.result.value.fileId == env.append.newId
            && s.registry - {name} == reg - {name}
            && s.registry[name].title == reg[name].title
            && s.registry[name].stickers
                 == reg[name].stickers + [Sticker(env.append.newId, EmojiFor(m.caption), FormatOf(RequestKind(m)))]
  {
    var m := req.update.value;
    var kind := RequestKind(m);
    var p := GetOrCreateSet(reg, req.user, botName, kind, env.provision);
    assert p.registry == reg && p.result.Ok?;
    TagOfEmoji(m.caption);
  }

  /** A user's first request of a kind creates the set, clears the placeholder and
      adds the sticker: with every platform call going through, the new set holds
      exactly the returned sticker, and every other set is unchanged. */
  lemma FirstRequestCreates(reg: Registry, req: Request, botName: string, env: Env)
    requires req.update.Some? && HasMedia(req.update.value)
    requires Target(req, botName) !in reg
    requires !env.chatActionFails && !env.downloadFails && !env.convertFails
    requires !env.provision.createFails && !env.provision.cleanupFails
    requires !env.append.addFails && !env.append.refetchFails
    ensures var s := HandleMedia(reg, req, botName, env);
            var name := Target(req, botName);
            var m := req.update.value;
            var kind := RequestKind(m);
            && s.result.Ok?
            && s.result.value.setName == name
            && s.result.value.fileId == env.append.newId
            && s.registry - {name} == reg - {name}
            && name in s.registry
            && s.registry[name] == StickerSet(SetTitle(req.user, kind), FormatOf(kind),
                                              [Sticker(env.append.newId, EmojiFor(m.caption), FormatOf(kind))])
  {
    TagOfEmoji(req.update.value.caption);
  }
}

=== FILE: naming.dfy ===
/** Pack naming (bot.py `sanitize_username` and the head of `get_or_create_set`):
    the sticker-set name and title derived from the user, the bot and the kind. */
module Naming {
  import opened Text
  import opened Types

  /** The parts of the Telegram user the naming reads; an absent username or
      first name is the empty string (the source writes `x or ""`). */
  datatype User = User(id: int, username: string, firstName: string)

  /** The characters a sanitized username is made of: `[a-z0-9_]`. */
  predicate IsNameChar(c: char) {
    IsLower(c) || IsDigit(c) || c == '_'
  }

  /** The characters the source's pattern `[a-zA-Z0-9_]` keeps. */
  predicate IsWordChar(c: char) {
    IsUpper(c) || IsLower(c) || IsDigit(c) || c == '_'
  }

  /** One character of the rewrite: kept (then lower-cased) or replaced by `_`. */
  function SanitizeChar(c: char): (r: char)
    ensures IsNameChar(r)
  {
    if IsWordChar(c) then LowerChar(c) else '_'
  }

  /** `sanitize_username`: `user<id>` without a username, otherwise every character
      outside `[a-zA-Z0-9_]` becomes `_` and the result is lower-cased. */
  function SanitizeUsername(username: string, userId: int): (r: string)
    ensures username == "" ==> r == "user" + IntToString(userId)
    ensures username != "" ==> |r| == |username|
    ensures username != "" ==> forall i :: 0 <= i < |r| ==>
      && IsNameChar(r[i])
      && (IsNameChar(username[i]) ==> r[i] == username[i])
      && (IsUpper(username[i]) ==> r[i] as int == username[i] as int + 32)
      && (!IsWordChar(username[i]) ==> r[i] == '_')
  {
    if username == "" then "user" + IntToString(userId)
    else seq(|username|, i requires 0 <= i < |username| => SanitizeChar(username[i]))
  }

  /** A username already made of `[a-z0-9_]` is its own sanitization. */
  lemma SanitizeKeepsNameChars(username: string, userId: int)
    requires username != ""
    requires forall i :: 0 <= i < |username| ==> IsNameChar(username[i])
    ensures SanitizeUsername(username, userId) == username
  {
  }

  /** Sanitizing is idempotent on a non-empty username: its output passes through
      a second sanitization unchanged, whatever id goes with it. */
  lemma SanitizeIdempotent(username: string, userId: int, userId': int)
    requires username != ""
    ensures SanitizeUsername(SanitizeUsername(username, userId), userId') == SanitizeUsername(username, userId)
  {
    SanitizeKeepsNameChars(SanitizeUsername(username, userId), userId');
  }

  /** Without a username the fallback `user<id>` is made of name characters when the
      id is non-negative (Telegram ids are), so it too survives a second sanitization. */
  lemma SanitizeFallbackIdempotent(userId: nat, userId': int)
    ensures SanitizeUsername(SanitizeUsername("", userId), userId') == SanitizeUsername("", userId)
  {
    var r := SanitizeUsername("", userId);
    assert forall i :: 4 <= i < |r| ==> r[i] == IntToString(userId)[i - 4];
    SanitizeKeepsNameChars(r, userId');
  }

  /** Users without a username get distinct fallbacks: the id can be read back. */
  lemma SanitizeFallbackInjective(userId: int, userId': int)
    requires SanitizeUsername("", userId) == SanitizeUsername("", userId')
    ensures userId == userId'
  {
    var a := IntToString(userId);
    var b := IntToString(userId');
    assert a == ("user" + a)[4..] == ("user" + b)[4..] == b;
    ParseIntToString(userId);
    ParseIntToString(userId');
  }

  function KindSuffix(kind: Kind): string {
    match kind
    case Static => "_static"
    case Video => "_video"
  }

  /** The name tail that identifies kind and bot: `_static_by_<bot>` or `_video_by_<bot>`. */
  function NameTail(kind: Kind, botName: string): string {
    KindSuffix(kind) + "_by_" + botName
  }

  /** Reads a set name of this bot back into the sanitized username and the kind. */
  function ParseSetName(name: string, botName: string): (r: Option<(string, Kind)>)
    ensures r.Some? ==> name == r.value.0 + NameTail(r.value.1, botName)
  {
    if EndsWith(name, NameTail(Static, botName)) then
      var k := |name| - |NameTail(Static, botName)|;
      assert name == name[..k] + name[k..];
      Some((name[..k], Static))
    else if EndsWith(name, NameTail(Video, botName)) then
      var k := |name| - |NameTail(Video, botName)|;
      assert name == name[..k] + name[k..];
      Some((name[..k], Video))
    else None
  }

  /** Any username followed by a kind's tail parses back into both. */
  lemma {:induction false} NameTailParses(u: string, botName: string, kind: Kind)
    ensures ParseSetName(u + NameTail(kind, botName), botName) == Some((u, kind))
  {
    var name := u + NameTail(kind, botName);
    var n := |name|;
    var b := |botName|;
    assert name == u + KindSuffix(kind) + "_by_" + botName;
    assert name[n - |NameTail(kind, botName)|..] == NameTail(kind, botName);
    assert name[..n - |NameTail(kind, botName)|] == u;
    if kind == Video {
      // The character just before "_by_<bot>" is 'o' here, but 'c' in the static tail.
      assert name[n - b - 5] == 'o';
      assert !EndsWith(name, NameTail(Static, botName));
    }
  }

  /** The set name built in `get_or_create_set`: `<uname><suffix>_by_<bot>`. It
      parses back into the sanitized username and the kind. */
  function SetName(user: User, botName: string, kind: Kind): (r: string)
    ensures ParseSetName(r, botName) == Some((SanitizeUsername(user.username, user.id), kind))
  {
    NameTailParses(SanitizeUsername(user.username, user.id), botName, kind);
    SanitizeUsername(user.username, user.id) + NameTail(kind, botName)
  }

  function DisplayName(user: User): string {
    if user.firstName == "" then "User" else user.firstName
  }

  function TitleTail(kind: Kind): string {
    match kind
    case Static => "'s Static Stickers"
    case Video => "'s Video Stickers"
  }

  /** Reads the display name and kind back off a set title. */
  function ParseTitle(title: string): (r: Option<(string, Kind)>)
    ensures r.Some? ==> title == r.value.0 + TitleTail(r.value.1)
  {
    if EndsWith(title, TitleTail(Static)) then
      var k := |title| - |TitleTail(Static)|;
      assert title == title[..k] + title[k..];
      Some((title[..k], Static))
    else if EndsWith(title, TitleTail(Video)) then
      var k := |title| - |TitleTail(Video)|;
      assert title == title[..k] + title[k..];
      Some((title[..k], Video))
    else None
  }

  /** Any display name followed by a kind's title tail parses back into both. */
  lemma {:induction false} TitleTailParses(d: string, kind: Kind)
    ensures ParseTitle(d + TitleTail(kind)) == Some((d, kind))
  {
    assert TitleTail(Static) == "'s Static Stickers" && |TitleTail(Static)| == 18;
    assert TitleTail(Video) == "'s Video Stickers" && |TitleTail(Video)| == 17;
    var t := d + TitleTail(kind);
    var n := |t|;
    assert t[n - |TitleTail(kind)|..] == TitleTail(kind);
    assert t[..n - |TitleTail(kind)|] == d;
    if kind == Video {
      // The character just before " Stickers" is 'o' here, but 'c' in the static tail.
      assert t[n - 10] == TitleTail(Video)[7] == 'o';
      assert TitleTail(Static)[8] == 'c';
      assert !EndsWith(t, TitleTail(Static));
    }
  }

  /** The set title: `<first name or "User">'s Static Stickers` / `'s Video Stickers`.
      It parses back into the display name and the kind. */
  function SetTitle(user: User, kind: Kind): (r: string)
    ensures ParseTitle(r) == Some((DisplayName(user), kind))
    ensures user.firstName != "" ==> r[..|user.firstName|] == user.firstName
    ensures user.firstName == "" ==> r[..4] == "User"
  {
    TitleTailParses(DisplayName(user), kind);
    DisplayName(user) + TitleTail(kind)
  }

  /** The static and the video set names never collide, for any two users of one bot. */
  lemma StaticVideoNamesDiffer(user: User, user': User, botName: string)
    ensures SetName(user, botName, Static) != SetName(user', botName, Video)
  {
  }

  /** For one bot and kind, two users share a set name exactly when their
      sanitized usernames agree. */
  lemma SetNameInjective(user: User, user': User, botName: string, kind: Kind)
    ensures SetName(user, botName, kind) == SetName(user', botName, kind)
        <==> SanitizeUsername(user.username, user.id) == SanitizeUsername(user'.username, user'.id)
  {
    var u := SanitizeUsername(user.username, user.id);
    var u' := SanitizeUsername(user'.username, user'.id);
    var t := NameTail(kind, botName);
    if u + t == u' + t {
      assert |u| == |u'|;
      assert u == (u + t)[..|u|] == (u' + t)[..|u'|] == u';
    }
  }

  /** A set name does not identify its owner: a user without a username and the
      user whose username is `user<that id>` share the set name of every kind. */
  lemma FallbackMeetsUsername(userId: nat, otherId: int, firstName: string, otherFirst: string,
                              botName: string, kind: Kind)
    ensures SetName(User(userId, "", firstName), botName, kind)
         == SetName(User(otherId, "user" + IntToString(userId), otherFirst), botName, kind)
  {
    var u := "user" + IntToString(userId);
    forall i | 0 <= i < |u|
      ensures IsNameChar(u[i])
    {
      if i >= 4 { assert u[i] == IntToString(userId)[i - 4]; }
    }
    SanitizeKeepsNameChars(u, otherId);
  }

  /** Example: `My.Bot!` sanitizes to `my_bot_`. */
  lemma ExampleSanitized()
    ensures SanitizeUsername("My.Bot!", 42) == "my_bot_"
  {
    var u := "My.Bot!";
    var r := SanitizeUsername(u, 42);
    assert |r| == 7;
    assert SanitizeChar(u[0]) == 'm' && SanitizeChar(u[1]) == 'y' && SanitizeChar(u[2]) == '_';
    assert SanitizeChar(u[3]) == 'b' && SanitizeChar(u[4]) == 'o' && SanitizeChar(u[5]) == 't';
    assert SanitizeChar(u[6]) == '_';
    assert r == "my_bot_";
  }

  /** Example: `My.Bot!` under the bot `StickBot` owns `my_bot__static_by_StickBot`. */
  lemma ExampleSetName()
    ensures SetName(User(42, "My.Bot!", ""), "StickBot", Static) == "my_bot__static_by_StickBot"
  {
    ExampleSanitized();
    assert KindSuffix(Static) + "_by_" == "_static_by_";
    assert "_static_by_" + "StickBot" == "_static_by_StickBot";
    assert "my_bot_" + "_static_by_StickBot" == "my_bot__static_by_StickBot";
  }
}

=== FILE: registry.dfy ===
/** Sticker-set provisioning and append (bot.py `get_or_create_set` and
    `add_to_set`) over an abstract registry of the platform's sticker sets. Each
    platform call that can fail is decided by an outcome record the caller passes
    in, so every behaviour of the source is one choice of outcomes. */
module Registry {
  import opened Types
  import opened Naming
  import opened Classify

  /** A sticker file's format, and the format a set is created with:
      WEBP (static) or WEBM (video). */
  datatype Format = Webp | Webm

  function FormatOf(kind: Kind): Format {
    match kind
    case Static => Webp
    case Video => Webm
  }

  datatype Sticker = Sticker(id: string, emoji: string, format: Format)

  datatype StickerSet = StickerSet(title: string, format: Format, stickers: seq<Sticker>)

  /** The platform's sticker sets, by name. */
  type Registry = map<string, StickerSet>

  /** A registry after a call, and what the call returned or raised. */
  datatype Step<T> = Step(registry: Registry, result: Result<T>)

  /** How the platform answers `get_or_create_set`'s calls: whether the lookup
      raises even though the set exists, whether the create is refused for a reason
      of its own, the id given to the placeholder, and whether the re-fetch or the
      delete of the placeholder raises. */
  datatype ProvisionOutcome = ProvisionOutcome(
    lookupFails: bool,
    createFails: bool,
    placeholderId: string,
    cleanupFails: bool)

  /** `get_or_create_set` returns the name and title; `created` records whether
      this call created the set. */
  datatype Provisioned = Provisioned(name: string, title: string, created: bool)

  /** The transparent 32x32 WEBP the set is created with, tagged with the default emoji. */
  function Placeholder(id: string): Sticker {
    Sticker(id, DefaultEmoji, Webp)
  }

  /** The set freshly made by `create_new_sticker_set`. */
  function NewSet(title: string, kind: Kind, placeholderId: string): StickerSet {
    StickerSet(title, FormatOf(kind), [Placeholder(placeholderId)])
  }

  /** Re-fetch the set and, if it has stickers, delete the first one. */
  function DeleteFirstSticker(reg: Registry, name: string): (r: Registry)
    requires name in reg
    ensures name in r && r - {name} == reg - {name}
    ensures r[name].title == reg[name].title && r[name].format == reg[name].format
    ensures |reg[name].stickers| > 0 ==> r[name].stickers == reg[name].stickers[1..]
    ensures |reg[name].stickers| == 0 ==> r == reg
  {
    var ss := reg[name];
    if |ss.stickers| > 0 then reg[name := ss.(stickers := ss.stickers[1..])] else reg
  }

  /** Create the missing set with the placeholder, then re-fetch it and delete its
      first sticker unless that clean-up raises. Only the new set appears, and it
      keeps the placeholder exactly when the clean-up failed. */
  function CreateWithPlaceholder(reg: Registry, name: string, title: string, kind: Kind, o: ProvisionOutcome): (r: Registry)
    requires name !in reg
    ensures r - {name} == reg - {name}
    ensures name in r
    ensures r[name] == StickerSet(title, FormatOf(kind), if o.cleanupFails then [Placeholder(o.placeholderId)] else [])
  {
    var created := reg[name := NewSet(title, kind, o.placeholderId)];
    if o.cleanupFails then created else DeleteFirstSticker(created, name)
  }

  /** `get_or_create_set`: look the set up; on any lookup failure create it with a
      placeholder, then try to delete the placeholder, swallowing a failure there.
      The platform refuses a create whose name is already taken. */
  function GetOrCreateSet(reg: Registry, user: User, botName: string, kind: Kind, o: ProvisionOutcome): (s: Step<Provisioned>)
    // No set other than this user's set of this kind is touched.
    ensures s.registry - {SetName(user, botName, kind)} == reg - {SetName(user, botName, kind)}
    // A set that already exists is never modified.
    ensures SetName(user, botName, kind) in reg ==> s.registry == reg
    // A successful lookup returns at once.
    ensures SetName(user, botName, kind) in reg && !o.lookupFails ==> s.result.Ok? && !s.result.value.created
    // A failure leaves the registry as it was; it only comes from a refused create.
    ensures s.result.Err? ==> s.registry == reg && s.result.error == CreateFailed
    ensures s.result.Err? ==> SetName(user, botName, kind) in reg || o.createFails
    // A failed lookup of a set that exists is taken for "not found": the create that
    // follows is refused, and the request fails although the set is there.
    ensures SetName(user, botName, kind) in reg && o.lookupFails ==> s == Step(reg, Err(CreateFailed))
    // A missing set is created unless the platform refuses.
    ensures SetName(user, botName, kind) !in reg ==> (s.result.Ok? <==> !o.createFails)
    // Success returns the derived name and title, and the set then exists.
    ensures s.result.Ok? ==>
      && s.result.value.name == SetName(user, botName, kind)
      && s.result.value.title == SetTitle(user, kind)
      && s.result.value.name in s.registry
    // The set is created exactly when it was missing, and it holds the placeholder
    // only if the clean-up failed.
    ensures s.result.Ok? ==> (s.result.value.created <==> SetName(user, botName, kind) !in reg)
    ensures s.result.Ok? && s.result.value.created ==>
      s.registry[s.result.value.name] ==
        StickerSet(SetTitle(user, kind), FormatOf(kind),
                   if o.cleanupFails then [Placeholder(o.placeholderId)] else [])
  {
    var name := SetName(user, botName, kind);
    var title := SetTitle(user, kind);
    if name in reg && !o.lookupFails then
      Step(reg, Ok(Provisioned(name, title, false)))
    else if name in reg || o.createFails then
      Step(reg, Err(CreateFailed))
    else
      Step(CreateWithPlaceholder(reg, name, title, kind, o), Ok(Provisioned(name, title, true)))
  }

  predicate Created(s: Step<Provisioned>) {
    s.result.Ok? && s.result.value.created
  }

  /** Two provisioning calls in a row, whatever the platform answers, create the set
      at most once; after a first success the second call changes nothing, and with
      a working lookup it returns the same name and title. */
  lemma ProvisionTwice(reg: Registry, user: User, botName: string, kind: Kind,
                       o1: ProvisionOutcome, o2: ProvisionOutcome)
    ensures var s1 := GetOrCreateSet(reg, user, botName, kind, o1);
            var s2 := GetOrCreateSet(s1.registry, user, botName, kind, o2);
            && !(Created(s1) && Created(s2))
            && (s1.result.Ok? ==> s2.registry == s1.registry && !Created(s2))
            && (s1.result.Ok? && !o2.lookupFails ==>
                  s2.result == Ok(s1.result.value.(created := false)))
  {
  }

  /** The outcome of `add_to_set`'s calls: whether the add is refused, the id the
      platform gives the new sticker, and whether the re-fetch raises. */
  datatype AppendOutcome = AppendOutcome(addFails: bool, newId: string, refetchFails: bool)

  /** `add_to_set`: append the sticker with its emoji (the default if empty) to the
      named set, re-fetch the set and return its last sticker's id. The platform
      refuses an add to a set that does not exist. */
  function AddToSet(reg: Registry, name: string, kind: Kind, emoji: string, o: AppendOutcome): (s: Step<string>)
    // No other set is touched.
    ensures s.registry - {name} == reg - {name}
    // A refused add changes nothing.
    ensures name !in reg || o.addFails ==> s == Step(reg, Err(AddFailed))
    // Otherwise the set grows by exactly the new sticker at its end.
    ensures name in reg && !o.addFails ==>
      && name in s.registry
      && s.registry[name].title == reg[name].title
      && s.registry[name].format == reg[name].format
      && s.registry[name].stickers == reg[name].stickers + [Sticker(o.newId, TagFor(emoji), FormatOf(kind))]
      && (s.result.Ok? <==> !o.refetchFails)
    // The returned id is that of the set's last sticker.
    ensures s.result.Ok? ==>
      && name in s.registry
      && |s.registry[name].stickers| > 0
      && s.result.value == s.registry[name].stickers[|s.registry[name].stickers| - 1].id
  {
    if name !in reg || o.addFails then
      Step(reg, Err(AddFailed))
    else
      var ss := reg[name];
      var sticker := Sticker(o.newId, TagFor(emoji), FormatOf(kind));
      var reg' := reg[name := ss.(stickers := ss.stickers + [sticker])];
      if o.refetchFails then Step(reg', Err(FetchFailed))
      else
        var stickers := reg'[name].stickers;
        Step(reg', Ok(stickers[|stickers| - 1].id))
  }

  /** No de-duplication: adding twice appends two entries. */
  lemma AddTwice(reg: Registry, name: string, kind: Kind, emoji: string, o1: AppendOutcome, o2: AppendOutcome)
    requires name in reg && !o1.addFails && !o2.addFails
    ensures var s1 := AddToSet(reg, name, kind, emoji, o1);
            var s2 := AddToSet(s1.registry, name, kind, emoji, o2);
            && name in s2.registry
            && |s2.registry[name].stickers| == |reg[name].stickers| + 2
            && s2.registry - {name} == reg - {name}
  {
  }
}

=== FILE: resize.dfy ===
/** Static resize geometry (bot.py `image_to_sticker_webp`): the dimensions an
    image is resized to before it is encoded as a WEBP sticker. */
module Resize {

  /** The longest edge a sticker may have. */
  const MaxEdge: nat := 512

  datatype Size = Size(width: nat, height: nat)

  function Max(a: nat, b: nat): nat {
    if a >= b then a else b
  }

  /** `scale = 512 / max(w, h)`; the image is resized to `(int(w * scale), int(h * scale))`
      only when `scale < 1`. The quotient is taken on integers (floor); the source
      divides by zero on a 0x0 image, so one edge must be positive. */
  function TargetSize(s: Size): (r: Size)
    requires s.width > 0 || s.height > 0
    ensures Max(s.width, s.height) <= MaxEdge ==> r == s
    ensures Max(s.width, s.height) > MaxEdge ==>
      && r.width <= MaxEdge && r.height <= MaxEdge
      && r.width <= s.width && r.height <= s.height
  {
    var m := Max(s.width, s.height);
    if m > MaxEdge then
      ScaledEdgeBounds(s.width, m);
      ScaledEdgeBounds(s.height, m);
      Size(s.width * MaxEdge / m, s.height * MaxEdge / m)
    else s
  }

  /** One edge scaled by 512/m, m the longer edge above 512, stays within both
      512 and the edge it came from. */
  lemma ScaledEdgeBounds(e: nat, m: nat)
    requires e <= m && m > MaxEdge
    ensures e * MaxEdge / m <= MaxEdge
    ensures e * MaxEdge / m <= e
  {
    MulLeq(e, m, MaxEdge);
    DivBelow(e * MaxEdge, m, MaxEdge);
    MulLeq(MaxEdge, m, e);
    DivBelow(e * MaxEdge, m, e);
  }

  lemma MulLeq(x: nat, y: nat, k: nat)
    requires x <= y
    ensures x * k <= y * k && k * x <= k * y
  {
    assert y * k - x * k == (y - x) * k;
  }

  /** a < d * (b + 1) bounds the floor quotient: a / d <= b. */
  lemma DivBelow(a: nat, d: nat, b: nat)
    requires d > 0 && a < d * (b + 1)
    ensures a / d <= b
  {
    var q := a / d;
    assert d * q <= a;
    if q > b {
      MulLeq(b + 1, q, d);
      assert false;
    }
  }

  /** Floor division keeps order: a <= b gives a / d <= b / d. */
  lemma DivMonotone(a: nat, b: nat, d: nat)
    requires d > 0 && a <= b
    ensures a / d <= b / d
  {
    var q := b / d;
    assert b == d * q + b % d;
    assert d * (q + 1) == d * q + d;
    DivBelow(a, d, q);
  }

  /** Resizing keeps the orientation: the wider side stays the wider side (or they tie). */
  lemma OrientationPreserved(s: Size)
    requires s.width > 0 || s.height > 0
    ensures s.width <= s.height ==> TargetSize(s).width <= TargetSize(s).height
    ensures s.height <= s.width ==> TargetSize(s).height <= TargetSize(s).width
  {
    var m := Max(s.width, s.height);
    if m > MaxEdge {
      if s.width <= s.height { DivMonotone(s.width * MaxEdge, s.height * MaxEdge, m); }
      if s.height <= s.width { DivMonotone(s.height * MaxEdge, s.width * MaxEdge, m); }
    }
  }

  /** Re-submitting a converted sticker resizes nothing: the target of a target is itself. */
  lemma TargetIdempotent(s: Size)
    requires s.width > 0 || s.height > 0
    ensures var r := TargetSize(s); (r.width > 0 || r.height > 0) && TargetSize(r) == r
  {
    var m := Max(s.width, s.height);
    var r := TargetSize(s);
    if m > MaxEdge {
      // The longer edge lands on exactly 512 in integer arithmetic.
      MulDivCancel(MaxEdge, m);
      assert m * MaxEdge == MaxEdge * m;
      if s.width == m { assert r.width == MaxEdge; } else { assert r.height == MaxEdge; }
      assert r.width <= MaxEdge && r.height <= MaxEdge;
    }
  }

  lemma MulDivCancel(k: nat, m: nat)
    requires m > 0
    ensures k * m / m == k
  {
    var q := k * m / m;
    assert k * m < m * (k + 1);
    DivBelow(k * m, m, k);
    assert m * q + (k * m) % m == k * m;
    if q < k {
      MulLeq(q + 1, k, m);
      assert false;
    }
  }

  /** Example: a 1024x768 image becomes 512x384. */
  lemma ExampleLandscape()
    ensures TargetSize(Size(1024, 768)) == Size(512, 384)
  {
  }

  /** Example: a 1x10000 image gets a zero-width target, which the resize then refuses. */
  lemma ExampleThin()
    ensures TargetSize(Size(1, 10000)) == Size(0, 512)
  {
  }
}

=== FILE: text.dfy ===
/** Character classes and string helpers with the meaning Python gives them:
    `str.isspace` / `str.strip()`, ASCII lower-casing and `str(int)`. */
module Text {

  /** Python's `str.isspace`: the code points with bidirectional class WS, B or S,
      or general category Zs. These are the characters `str.strip()` removes. */
  predicate IsSpace(c: char) {
    var n := c as int;
    || (0x09 <= n <= 0x0D)
    || (0x1C <= n <= 0x20)
    || n == 0x85
    || n == 0xA0
    || n == 0x1680
    || (0x2000 <= n <= 0x200A)
    || n == 0x2028
    || n == 0x2029
    || n == 0x202F
    || n == 0x205F
    || n == 0x3000
  }

  predicate IsUpper(c: char) { 'A' <= c <= 'Z' }
  predicate IsLower(c: char) { 'a' <= c <= 'z' }
  predicate IsDigit(c: char) { '0' <= c <= '9' }

  /** Lower-cases an ASCII letter and leaves every other character alone. */
  function LowerChar(c: char): (r: char)
    ensures IsUpper(c) ==> IsLower(r) && r as int == c as int + 32
    ensures !IsUpper(c) ==> r == c
  {
    if IsUpper(c) then (c as int + 32) as char else c
  }

  /** ASCII lower-casing: upper-case letters move to their lower-case letter,
      everything else is kept. */
  function Lower(s: string): (r: string)
    ensures |r| == |s|
    ensures forall i :: 0 <= i < |s| ==>
      && (IsUpper(s[i]) ==> IsLower(r[i]) && r[i] as int == s[i] as int + 32)
      && (!IsUpper(s[i]) ==> r[i] == s[i])
  {
    seq(|s|, i requires 0 <= i < |s| => LowerChar(s[i]))
  }

  /** Lower-casing twice is lower-casing once. */
  lemma LowerIdempotent(s: string)
    ensures Lower(Lower(s)) == Lower(s)
  {
  }

  /** A string without upper-case letters is its own lower-casing. */
  lemma LowerKeeps(s: string)
    requires forall i :: 0 <= i < |s| ==> !IsUpper(s[i])
    ensures Lower(s) == s
  {
  }

  /** `a` and `b` differ at most in the case of ASCII letters. */
  predicate SameIgnoringCase(a: string, b: string) {
    |a| == |b| && forall i :: 0 <= i < |a| ==> LowerChar(a[i]) == LowerChar(b[i])
  }

  /** Lower-casing `s` yields a string `x` with no upper-case letter exactly when `s`
      and `x` differ only in case. */
  lemma LowerEqualsIgnoringCase(s: string, x: string)
    requires forall i :: 0 <= i < |x| ==> !IsUpper(x[i])
    ensures Lower(s) == x <==> SameIgnoringCase(s, x)
  {
    if SameIgnoringCase(s, x) {
      assert forall i :: 0 <= i < |s| ==> Lower(s)[i] == x[i];
    }
  }

  predicate EndsWith(s: string, tail: string) {
    |tail| <= |s| && s[|s| - |tail|..] == tail
  }

  ghost predicate AllSpace(s: string) {
    forall k :: 0 <= k < |s| ==> IsSpace(s[k])
  }

  /** `s[i..j]` is what is left of `s` once leading and trailing whitespace are removed. */
  ghost predicate Trimmed(s: string, i: int, j: int) {
    && 0 <= i <= j <= |s|
    && AllSpace(s[..i])
    && AllSpace(s[j..])
    && (i < j ==> !IsSpace(s[i]) && !IsSpace(s[j - 1]))
  }

  /** Index of the first non-whitespace character at or after `i` (|s| if none). */
  function SkipSpaces(s: string, i: nat): (k: nat)
    requires i <= |s|
    ensures i <= k <= |s|
    ensures forall m :: i <= m < k ==> IsSpace(s[m])
    ensures k < |s| ==> !IsSpace(s[k])
    decreases |s| - i
  {
    if i == |s| || !IsSpace(s[i]) then i else SkipSpaces(s, i + 1)
  }

  /** End of the last non-whitespace character before `j`, not going below `lo`. */
  function SkipSpacesBack(s: string, lo: nat, j: nat): (k: nat)
    requires lo <= j <= |s|
    ensures lo <= k <= j
    ensures forall m :: k <= m < j ==> IsSpace(s[m])
    ensures lo < k ==> !IsSpace(s[k - 1])
    decreases j
  {
    if j == lo || !IsSpace(s[j - 1]) then j else SkipSpacesBack(s, lo, j - 1)
  }

  /** Python's `s.strip()` with no argument. */
  function Strip(s: string): (r: string)
    ensures exists i, j :: Trimmed(s, i, j) && r == s[i..j]
  {
    var i := SkipSpaces(s, 0);
    var j := SkipSpacesBack(s, i, |s|);
    assert AllSpace(s[..i]) by {
      forall k | 0 <= k < i ensures IsSpace(s[..i][k]) { assert s[..i][k] == s[k]; }
    }
    assert AllSpace(s[j..]) by {
      forall k | 0 <= k < |s| - j ensures IsSpace(s[j..][k]) { assert s[j..][k] == s[j + k]; }
    }
    assert Trimmed(s, i, j);
    s[i..j]
  }

  /** The whitespace a strip removes is determined by `s` alone: any trimming of `s` is `Strip(s)`. */
  lemma TrimmedUnique(s: string, i: int, j: int, i': int, j': int)
    requires Trimmed(s, i, j) && Trimmed(s, i', j')
    ensures s[i..j] == s[i'..j']
  {
    if i < j && i' < j' {
      assert i == i' && j == j';
    }
  }

  lemma StripCharacterized(s: string, i: int, j: int)
    requires Trimmed(s, i, j)
    ensures Strip(s) == s[i..j]
  {
    var i', j' :| Trimmed(s, i', j') && Strip(s) == s[i'..j'];
    TrimmedUnique(s, i, j, i', j');
  }

  function DigitChar(d: nat): (c: char)
    requires d < 10
    ensures IsDigit(c) && c as int - '0' as int == d
  {
    ('0' as int + d) as char
  }

  /** Python's `str(n)` for a non-negative integer: decimal, no leading zeros. */
  function NatToString(n: nat): (r: string)
    ensures |r| > 0
    ensures forall k :: 0 <= k < |r| ==> IsDigit(r[k])
    ensures r[0] == '0' ==> n == 0
  {
    if n < 10 then [DigitChar(n)] else NatToString(n / 10) + [DigitChar(n % 10)]
  }

  /** Python's `str(n)` for any integer. */
  function IntToString(n: int): (r: string)
    ensures n >= 0 ==> forall k :: 0 <= k < |r| ==> IsDigit(r[k])
    ensures n < 0 ==> |r| >= 2 && r[0] == '-' && forall k :: 1 <= k < |r| ==> IsDigit(r[k])
  {
    if n >= 0 then NatToString(n) else "-" + NatToString(-n)
  }

  /** Reads back a string of decimal digits. */
  function ParseNat(s: string): nat
  {
    if |s| == 0 then 0
    else
      var c := s[|s| - 1];
      var d := if IsDigit(c) then c as int - '0' as int else 0;
      ParseNat(s[..|s| - 1]) * 10 + d
  }

  function ParseInt(s: string): int
  {
    if |s| > 0 && s[0] == '-' then 0 - ParseNat(s[1..]) else ParseNat(s)
  }

  lemma {:induction false} ParseNatToString(n: nat)
    ensures ParseNat(NatToString(n)) == n
  {
    if n >= 10 {
      var s := NatToString(n);
      var p := NatToString(n / 10);
      assert s == p + [DigitChar(n % 10)];
      assert s[..|s| - 1] == p;
      ParseNatToString(n / 10);
    }
  }

  /** `str` on integers is injective: it can be read back. */
  lemma ParseIntToString(n: int)
    ensures ParseInt(IntToString(n)) == n
  {
    if n >= 0 {
      ParseNatToString(n);
    } else {
      var s := IntToString(n);
      assert s[1..] == NatToString(-n);
      ParseNatToString(-n);
    }
  }
}

=== FILE: types.dfy ===
/** Vocabulary shared by the bot's components: the two sticker kinds, the fallback
    emoji, and the failures a request can end in. */
module Types {

  /** The fallback emoji bound to a sticker when the caption gives none (U+1F9E9 JIGSAW PUZZLE PIECE). */
  const DefaultEmoji: string := "\U{1F9E9}"

  /** Conversion category: a static WEBP sticker or a video WEBM sticker. */
  datatype Kind = Static | Video

  /** The exceptions a request can raise before the handler turns them into a reply. */
  datatype Error =
    | NoMessage            // the update carries no message
    | UnsupportedMessage   // no photo, animation, video or document
    | DownloadFailed       // the platform's file download failed
    | ConversionFailed     // image decoding or the transcoder failed
    | CreateFailed         // create_new_sticker_set was refused
    | AddFailed            // add_sticker_to_set was refused
    | FetchFailed          // re-fetching the set after adding to it failed
    | ApiFailed            // another platform call (the chat action) failed

  datatype Result<+T> = Ok(value: T) | Err(error: Error)

  datatype Option<+T> = None | Some(value: T)
}
